=== FILE: README.md ===
# Activity monitor core, modelled in Dafny

This project models the activity recorder of the MyRemoteDesk desktop
client (`MyRemoteDeskDesktopApp/engine/moni.py`). The recorder polls the
foreground window and names the current activity. That name is the window
title, or for a Google Chrome window the address-bar text up to its first
`/` (the page's host when the bar shows a URL without its scheme). On every change
of name the recorder logs a row titled with the previous activity to the
`monitoring` table. On every change after the first it also does two more
things:

- it closes the open interval and credits it to the previous activity in a ledger;
- it rewrites the ledger document `activities.json`.

`show_activity` reads that document back. It reports, per activity, its
name and the seconds credited to it.

The modules follow the source's structure:

| module | file | models |
|---|---|---|
| `Wrappers` | `wrappers.dfy` | the shared `Option` and `Result` types |
| `JsonDoc` | `json_doc.dfy` | the loaded JSON document as a tree of values; subscripting, iteration, `int(...)` and timestamp parsing, each failing with the exception's kind; the append loops that decode a list |
| `WindowName` | `window_name.dfy` | `str.split`, `url_to_name` and the Google Chrome naming rule |
| `TimeEntries` | `time_entries.dfy` | `TimeEntry`, `_get_specific_times`, one entry's serialisation and reading back |
| `Ledger` | `ledger.dfy` | `Activity` and `ActivityList`, the ledger document and its round trip, and the merge that credits a closed interval to an activity |
| `Report` | `report.dfy` | `show_activity`, as a method over the stored document and as a statement about ledgers the monitor wrote |
| `Monitoring` | `monitor.dfy` | `record` and `mainRecord`: the `Monitor` class, one poll per `Step`, and `Stop` for the interrupt handler |
| `Scenario` | `scenario.dfy` | a session driven only through the contracts of `Step` and `Stop` |

The source's objects are modelled as follows:

- `ActivityList` and the monitor's loop state are classes, and their methods update fields.
- `Activity` and `TimeEntry` are values. An in-place append to an activity's list is a reassignment of the ledger's `activities` field.
- Instants are whole seconds on one clock. A timestamp string in the document is the leaf `JTime(t)`.
  Python has one `str` type; the model has two leaves for it. Every loaded string in the written format `%Y-%m-%d %H:%M:%S` is `JTime`, and every other string is `JStr`.
  Round trips of the ledger and the equality of summed seconds with elapsed time hold under this abstraction (see "## Left out").

## Model

| member | source | states |
|---|---|---|
| `TimeEntries.GetSpecificTimes` | MyRemoteDeskDesktopApp/engine/moni.py:185-189 | keeps both instants; `days` is the interval's whole days rounded down; `hours*3600 + minutes*60 + seconds` is the whole interval; `0 <= minutes < 60` and `0 <= seconds < 60`; `hours >= 24*days` |
| `TimeEntries.NormalisedUnique` | MyRemoteDeskDesktopApp/engine/moni.py:185-189 | two normalised entries of the same length have the same four fields, so the split is a function of the interval and normalising twice changes nothing |
| `TimeEntries.EntryRoundTrip` | MyRemoteDeskDesktopApp/engine/moni.py:192-200 | reading back a serialised entry, as `get_time_entries_from_json` reads one record, gives the same entry |
| `TimeEntries.EntryListRoundTrip` | MyRemoteDeskDesktopApp/engine/moni.py:138-143 | reading back a serialised entry list gives the same entries in the same order |
| `TimeEntries.SerializeEntry` | MyRemoteDeskDesktopApp/engine/moni.py:192-200 | the record `serialize` writes: an object with exactly the keys `start_time`, `end_time`, `days`, `hours`, `minutes` and `seconds` |
| `TimeEntries.DecodeEntry` | MyRemoteDeskDesktopApp/engine/moni.py:78-85 | one record reads as an entry exactly when both instants are timestamps and the four durations are integers, and then each field is the record's value; a record without `start_time` fails with that KeyError first |
| `TimeEntries.EntriesToJson` | MyRemoteDeskDesktopApp/engine/moni.py:138-143 | `make_time_entries_to_json`: one serialised record per entry, in order |
| `JsonDoc.DecodeEachMeaning` | MyRemoteDeskDesktopApp/engine/moni.py:74-88 | an append loop over a list succeeds exactly when every item decodes, and then holds each item's value at its index; otherwise it fails with the first failing item's error |
| `JsonDoc.DecodeEachInverts` | MyRemoteDeskDesktopApp/engine/moni.py:97-102 | decoding an encoded list gives the list back whenever decoding inverts encoding on each element |
| `Ledger.SerializeActivity` | MyRemoteDeskDesktopApp/engine/moni.py:131-135 | the record `Activity.serialize` writes: an object with exactly the keys `name`, holding the name, and `time_entries`, holding one record per entry |
| `Ledger.ActivitiesToJson` | MyRemoteDeskDesktopApp/engine/moni.py:97-102 | `activities_to_json`: one serialised activity per activity, in order |
| `Ledger.SerializeLedger` | MyRemoteDeskDesktopApp/engine/moni.py:91-94 | `ActivityList.serialize`: an object whose only key `activities` holds one record per activity |
| `Ledger.DecodeTimeEntries` | MyRemoteDeskDesktopApp/engine/moni.py:74-88 | reading an activity record's entries: a KeyError when `time_entries` is missing; on success one entry per record of the list |
| `Ledger.DecodeActivity` | MyRemoteDeskDesktopApp/engine/moni.py:64-68 | reading one activity record: a KeyError when `name` is missing; on success the stored name and the entries `DecodeTimeEntries` reads from the record |
| `Ledger.DecodeLedger` | MyRemoteDeskDesktopApp/engine/moni.py:61-71 | reading the ledger document: a KeyError when `activities` is missing; on success one activity per record of the list |
| `Ledger.ActivityList.constructor` | MyRemoteDeskDesktopApp/engine/moni.py:45-46 | the ledger holds the activities it is given |
| `Ledger.Merged` | MyRemoteDeskDesktopApp/engine/moni.py:309-317 | the ledger after crediting an entry to a name: the name is then present; every activity of that name gains the entry at the end of its entries; the others are unchanged; the ledger grows by one activity exactly when the name was absent |
| `Ledger.ActivityRoundTrip` | MyRemoteDeskDesktopApp/engine/moni.py:131-135 | reading back a serialised activity gives its name and every entry |
| `Ledger.LedgerRoundTrip` | MyRemoteDeskDesktopApp/engine/moni.py:91-102 | reading back the serialised ledger document gives the same activities in the same order |
| `Ledger.ActivityList.GetTimeEntriesFromJson` | MyRemoteDeskDesktopApp/engine/moni.py:74-88 | the loop returns every entry of the record's `time_entries` in order, or the error of the first one that does not read |
| `Ledger.ActivityList.GetActivitiesFromJson` | MyRemoteDeskDesktopApp/engine/moni.py:61-71 | the loop returns every activity in order, and only then replaces the ledger's activities; on the first failure the ledger is unchanged |
| `Ledger.ActivityList.InitializeMe` | MyRemoteDeskDesktopApp/engine/moni.py:48-58 | succeeds exactly when the file holds a readable ledger, and then returns a fresh ledger equal to the document's, having replaced this one's activities too; on failure this ledger is unchanged |
| `Ledger.MergeIntoExisting` | MyRemoteDeskDesktopApp/engine/moni.py:309-313 | with unique names, crediting a name the ledger holds appends the entry to the end of that activity's entries and leaves every other activity as it was |
| `Ledger.MergeNewName` | MyRemoteDeskDesktopApp/engine/moni.py:315-317 | crediting a name the ledger lacks appends one new activity holding just the entry, at the end |
| `Ledger.MergeKeepsNames` | MyRemoteDeskDesktopApp/engine/moni.py:309-317 | the merge keeps names unique and in first-seen order: the name list is unchanged, or grows by the new name at the end |
| `Ledger.MergeAddsOneEntry` | MyRemoteDeskDesktopApp/engine/moni.py:309-317 | with unique names, the merge adds exactly one time entry to the ledger |
| `Ledger.AppendWhereNamedCount` | MyRemoteDeskDesktopApp/engine/moni.py:310-313 | as written, the loop adds one entry per activity carrying the name |
| `Ledger.UniqueNameCount` | MyRemoteDeskDesktopApp/engine/moni.py:310-313 | with unique names, at most one activity carries a name |
| `Ledger.MergeKeepsNormalised` | MyRemoteDeskDesktopApp/engine/moni.py:306-317 | crediting a normalised entry keeps every entry of the ledger normalised |
| `WindowName.JoinSplit` | MyRemoteDeskDesktopApp/engine/moni.py:205 | `split` loses nothing: joining the pieces with the separator gives the string back |
| `WindowName.SplitAtSep` | MyRemoteDeskDesktopApp/engine/moni.py:205 | a separator between two strings splits their pieces apart |
| `WindowName.UrlToName` | MyRemoteDeskDesktopApp/engine/moni.py:204-206 | `url_to_name` answers exactly when the URL has at least three `/`-separated pieces (otherwise the indexing raises), and its answer holds no `/` |
| `WindowName.AddressBarHost` | MyRemoteDeskDesktopApp/engine/moni.py:228 | on `"https://" + v` from the address bar, `url_to_name` never fails and gives the part of `v` before its first `/` |
| `WindowName.UrlToNameGivesHost` | MyRemoteDeskDesktopApp/engine/moni.py:204-206 | `url_to_name("https://" + h + rest)` is `h` when `h` holds no `/` and `rest` is empty or starts with `/` |
| `WindowName.HostIsPrefix` | MyRemoteDeskDesktopApp/engine/moni.py:204-206 | the first piece of a split holds no separator and is the prefix of the string up to its first separator |
| `WindowName.ContainsText` | MyRemoteDeskDesktopApp/engine/moni.py:287 | `sub in s` holds exactly when `sub` occurs at some index of `s` |
| `WindowName.ResolvedName` | MyRemoteDeskDesktopApp/engine/moni.py:286-288 | a title not mentioning Google Chrome is the name; otherwise the name is a `/`-free prefix of the address bar text that ends at its end or at a `/` |
| `Report.SummaryOfDocument` | MyRemoteDeskDesktopApp/engine/moni.py:237-267 | what `show_activity` returns: "no json data" exactly when there is no readable document or it has no `activities` key; on success one pair per activity record |
| `Report.ShowActivity` | MyRemoteDeskDesktopApp/engine/moni.py:237-267 | returns "no json data" when the file is unreadable or has no `activities` key; otherwise it returns the error of the first record the loops cannot read, or the names zipped with the totals, which `SummaryOfDocument` defines |
| `Report.SumEntrySeconds` | MyRemoteDeskDesktopApp/engine/moni.py:254-256 | the inner loop sums `minutes*60 + seconds + hours*3600` over the entries, or fails at the first entry whose field is missing or not a number |
| `Report.ActivityTotal` | MyRemoteDeskDesktopApp/engine/moni.py:253-258 | one activity's total, failing as its `time_entries` lookup, its iteration or its entries do |
| `Report.SerialisedEntriesSeconds` | MyRemoteDeskDesktopApp/engine/moni.py:254-256 | on serialised entries the inner loop gives the sum of the entries' seconds, `days` not added |
| `Report.ShowSerialisedLedger` | MyRemoteDeskDesktopApp/engine/moni.py:248-267 | on a document the monitor wrote, the summary succeeds with one pair per activity, in ledger order: its name and the sum of `hours*3600 + minutes*60 + seconds` over its entries |
| `Report.NormalisedSecondsAreElapsed` | MyRemoteDeskDesktopApp/engine/moni.py:187-189 | for entries `_get_specific_times` computed, those sums are the elapsed time: leaving `days` out counts no day twice and loses none |
| `Monitoring.Monitor.constructor` | MyRemoteDeskDesktopApp/engine/moni.py:276-280 | the loop starts with no current activity, `first_time` set, the clock's reading, an empty log, and the ledger loaded from the file, or empty when loading raises |
| `Monitoring.Monitor.MergeEntry` | MyRemoteDeskDesktopApp/engine/moni.py:309-317 | the ledger after the loop is `Merged` of the ledger before |
| `Monitoring.Monitor.Step` | MyRemoteDeskDesktopApp/engine/moni.py:283-324 | see the paragraph below this table |
| `Monitoring.Monitor.Stop` | MyRemoteDeskDesktopApp/engine/moni.py:328-330 | the interrupt writes the ledger as it stands to the file, and the written document reads back as the ledger |
| `Scenario.EditorBrowserEditorTotals` | MyRemoteDeskDesktopApp/engine/moni.py:248-267 | a ledger of Editor for 10 + 3 seconds and example.com for 5 summarises to `[("Editor", 13), ("example.com", 5)]` |
| `Scenario.ChromeTabIsItsHost` | MyRemoteDeskDesktopApp/engine/moni.py:286-288 | a Chrome window on `example.com/mail` is the activity `example.com` |

`Monitoring.Monitor.Step` states the following:

- The new name is the resolved name.
- The same name as before changes nothing.
- A new name logs exactly one row, titled with the previous name and stamped with the poll's time.
- On the first transition nothing is credited, and the interval start stays as it was.
- On a later transition, an entry `[start_time, now]` is credited through `Merged` to the previous name, and that entry is normalised. The ledger is written to the file, and the document reads back as the ledger. The interval restarts at `now`.
- Unique names and normalised entries are preserved.

## Left out

- The MySQL `monitoring` table: modelled as the ghost log `Monitor.sink`. The connection, the cursor and the commit are left out.
- File I/O on `activities.json`: the file is the field `Monitor.stored`, or an `Option<Json>` argument. A missing, empty or non-JSON file is `None`. `json.dump` formatting (`indent`, `sort_keys`) does not matter once the document is a value.
- `erase` empties `activities.json`, which would make the stored document `None`. It is not modelled because neither `record` nor `show_activity` calls it.
- `strftime`/`dateutil`: the timestamp text is not modelled. `JTime(t)` carries the instant. Whole-second instants make the sub-second truncation of `strftime` moot.
- The clock: the source reads `datetime.now()` once on the first transition (line 297) and three times on each later one (lines 297, 305 and 321). A step takes one reading `now` for all three.
- `get_active_window` and `get_chrome_url` (win32gui/uiautomation): the title and the address-bar text are inputs of `Step`. The platform branches are left out, including the Linux path that leaves `new_window_name` unbound, and a `None` title.
- `time.sleep` and the `KeyboardInterrupt` mechanism: the loop is one `Step` per poll, and the handler is `Stop`.
- `show_activity`'s `tot` and its "Time used" string are never returned, and their values are not modelled. `tot` adds the running `sed` after every entry (line 257), so it grows with the square of an activity's entry count. The `print` calls and `exit(0)` are left out; `exit(0)` is the error value `NoJsonData`.
- `Report.SummaryOfDocument`: does not model the failure of `time.gmtime(tot)` at line 260. That call raises OverflowError past the platform's `time_t`, and on Windows raises OSError for a negative `tot` or one past 3000-12-31. The model returns `Ok` for those documents too, for example one holding a huge `hours` value.
- `Report.ShowActivity`: proved equal to `SummaryOfDocument`, so it too returns `Ok` where line 260 raises for an out-of-range `tot`.
- `Report.ShowSerialisedLedger`: "the summary succeeds" holds only because line 260 is not modelled. On Windows the source raises for a ledger holding an entry with a negative interval, which a clock set back produces. It also raises once the quadratically growing `tot` of a long-lived ledger passes 3000-12-31.
- `get_time_entries_from_json` also stores its result in a stray `self.time_entries` attribute of `ActivityList`. Nothing reads that attribute, so it is not modelled.
- Sub-second time: `datetime.now()` carries microseconds, which `timedelta.seconds` drops in `_get_specific_times` and `strftime` drops from the document. With whole-second instants, the ledger read back from the file equals the one in memory and `Report.NormalisedSecondsAreElapsed` holds; in the source the reloaded instants and the summed seconds can each fall short by under a second per entry.
- The employee and organisation ids are passed through as JSON values, as the source's callers take them from a request body; where they come from is not modelled.
- Aliasing: `Activity` and `TimeEntry` are values. Appending to an activity's list in place is modelled as replacing the ledger's sequence.
- `TimeEntries.DecodeEntry`: requires the four duration fields to be JSON integers. The source stores whatever value is there.
- `Ledger.DecodeActivity`: requires the name to be a JSON string. The source stores whatever value is there.
- `JsonDoc.IntOf`: JSON floats and numeral strings are not modelled. A string is always a `ValueError`.
- A window title or an activity name spelled exactly like a timestamp would load as `JTime` and fail `AsString`; such names are outside the model.
- `JsonDoc.ParseTime`: only a timestamp in the written format parses. `dateutil`'s lenient parsing of other strings is not modelled.
- `JsonDoc.Elements`: iterating a non-list value is modelled only as far as the loop bodies see it. An empty string or object iterates to nothing. A non-empty one fails at the body's first subscript.
- `Ledger.ActivityList.InitializeMe`: an unreadable file is `None`, so `open` and `json.load` errors are the single error `Unreadable`.

=== FILE: json_doc.dfy ===
/**
 * The ledger document `activities.json` as a tree of values rather than text.
 *
 * Only what the monitor's readers do with a loaded document is modelled:
 * subscripting an object by a key, iterating a value with `for`, `int(...)`
 * on a number and parsing a timestamp. Each of these fails in Python with an
 * exception; here each failure is an `Err` carrying the exception's kind.
 */
module JsonDoc {
  import opened Wrappers

  /** A loaded JSON value. A timestamp string written with the format
      `%Y-%m-%d %H:%M:%S` is carried as `JTime(t)`, the whole-second instant
      it names, instead of its characters. */
  datatype Json =
    | JNull
    | JBool(b: bool)
    | JInt(i: int)
    | JStr(s: string)
    | JTime(t: int)
    | JList(items: seq<Json>)
    | JObject(fields: map<string, Json>)

  /** The Python exceptions a reader of the document can raise. */
  datatype LoadError =
    | Unreadable           // the file is missing, empty or not JSON (open / json.load)
    | KeyError(key: string)
    | TypeError
    | ValueError

  /** `j[key]` for a string key: only an object that holds the key answers. */
  function Get(j: Json, key: string): (r: Result<Json, LoadError>)
    ensures r.Ok? <==> j.JObject? && key in j.fields
    ensures r.Ok? ==> r.value == j.fields[key]
    ensures r.Err? && j.JObject? ==> r.error == KeyError(key)
  {
    match j
    case JObject(m) => if key in m then Ok(m[key]) else Err(KeyError(key))
    case _ => Err(TypeError)
  }

  /** The values `for x in j` hands to a loop body whose first act is to
      subscript `x` by a string key. A list gives its items; an empty string
      or object gives nothing; a non-empty string or object gives strings
      (characters or keys), which that subscript rejects with a TypeError,
      so the whole loop fails; numbers, booleans and null are not iterable. */
  function Elements(j: Json): (r: Result<seq<Json>, LoadError>)
    ensures j.JList? ==> r == Ok(j.items)
    ensures r.Ok? && r.value != [] ==> j.JList?
  {
    match j
    case JList(items) => Ok(items)
    case JStr(s) => if s == [] then Ok([]) else Err(TypeError)
    case JObject(m) => if m == map[] then Ok([]) else Err(TypeError)
    case _ => Err(TypeError)
  }

  /** Python's `int(j)` on a loaded value: an integer is itself, a boolean is
      0 or 1, a string that is not a numeral (a timestamp is not) raises a
      ValueError, anything else a TypeError. */
  function IntOf(j: Json): (r: Result<int, LoadError>)
    ensures j.JInt? ==> r == Ok(j.i)
  {
    match j
    case JInt(i) => Ok(i)
    case JBool(b) => Ok(if b then 1 else 0)
    case JStr(_) => Err(ValueError)
    case JTime(_) => Err(ValueError)
    case _ => Err(TypeError)
  }

  /** A stored duration field. The model requires a JSON integer here, while
      the source keeps whatever value is stored. */
  function AsInt(j: Json): (r: Result<int, LoadError>)
    ensures r.Ok? <==> j.JInt?
  {
    if j.JInt? then Ok(j.i) else Err(TypeError)
  }

  /** A stored activity name. The model requires a JSON string here, while
      the source keeps whatever value is stored. */
  function AsString(j: Json): (r: Result<string, LoadError>)
    ensures r.Ok? <==> j.JStr?
  {
    if j.JStr? then Ok(j.s) else Err(TypeError)
  }

  /** `dateutil.parser.parse(j)`: a timestamp string gives its instant. */
  function ParseTime(j: Json): (r: Result<int, LoadError>)
    ensures r.Ok? <==> j.JTime?
  {
    match j
    case JTime(t) => Ok(t)
    case JStr(_) => Err(ValueError)
    case _ => Err(TypeError)
  }

  /** An append loop `for x in items: out.append(decode(x))` whose body may
      raise: every item decoded in order, or the failure of the first item
      that does not decode (see `DecodeEachMeaning`). */
  function DecodeEach<T>(items: seq<Json>, decode: Json -> Result<T, LoadError>): (r: Result<seq<T>, LoadError>)
    ensures r.Ok? ==> |r.value| == |items|
  {
    if items == [] then Ok([])
    else
      var init :- DecodeEach(items[..|items| - 1], decode);
      var x :- decode(items[|items| - 1]);
      Ok(init + [x])
  }

  /** The loop succeeds exactly when every item decodes, and then holds
      each item's value at its index; otherwise it reports the failure of
      the first item that does not decode. */
  lemma {:induction false} DecodeEachMeaning<T>(items: seq<Json>, decode: Json -> Result<T, LoadError>)
    ensures DecodeEach(items, decode).Ok? <==> forall k :: 0 <= k < |items| ==> decode(items[k]).Ok?
    ensures DecodeEach(items, decode).Ok? ==>
      forall k :: 0 <= k < |items| ==> decode(items[k]) == Ok(DecodeEach(items, decode).value[k])
    ensures DecodeEach(items, decode).Err? ==>
      exists k :: 0 <= k < |items| && decode(items[k]) == Err(DecodeEach(items, decode).error)
                  && forall j :: 0 <= j < k ==> decode(items[j]).Ok?
  {
    if items != [] {
      var n := |items|;
      DecodeEachMeaning(items[..n - 1], decode);
      assert forall k :: 0 <= k < n - 1 ==> items[..n - 1][k] == items[k];
      if DecodeEach(items[..n - 1], decode).Err? {
        var k :| 0 <= k < n - 1 && decode(items[k]) == Err(DecodeEach(items[..n - 1], decode).error)
                 && forall j :: 0 <= j < k ==> decode(items[j]).Ok?;
        assert decode(items[k]) == Err(DecodeEach(items, decode).error);
      } else if decode(items[n - 1]).Err? {
        assert decode(items[n - 1]) == Err(DecodeEach(items, decode).error);
      }
    }
  }

  /** One more turn of the loop: the next item is appended, or its failure ends the loop. */
  lemma DecodeEachExtend<T>(items: seq<Json>, decode: Json -> Result<T, LoadError>, i: nat)
    requires i < |items|
    requires DecodeEach(items[..i], decode).Ok?
    ensures decode(items[i]).Ok? ==>
      DecodeEach(items[..i + 1], decode) == Ok(DecodeEach(items[..i], decode).value + [decode(items[i]).value])
    ensures decode(items[i]).Err? ==> DecodeEach(items[..i + 1], decode) == Err(decode(items[i]).error)
  {
    assert items[..i + 1][..i] == items[..i];
  }

  /** A failure among the first `i` items is the failure of the whole loop. */
  lemma {:induction false} DecodeEachStops<T>(items: seq<Json>, decode: Json -> Result<T, LoadError>, i: nat)
    requires i <= |items|
    requires DecodeEach(items[..i], decode).Err?
    ensures DecodeEach(items, decode) == DecodeEach(items[..i], decode)
    decreases |items| - i
  {
    if i == |items| {
      assert items[..i] == items;
    } else {
      assert items[..i + 1][..i] == items[..i];
      DecodeEachStops(items, decode, i + 1);
    }
  }

  /** `for x in xs: out.append(encode(x))`. */
  function EncodeEach<T>(xs: seq<T>, encode: T -> Json): (r: seq<Json>)
    ensures |r| == |xs|
    ensures forall k :: 0 <= k < |xs| ==> r[k] == encode(xs[k])
  {
    seq(|xs|, k requires 0 <= k < |xs| => encode(xs[k]))
  }

  /** Decoding what was encoded gives the values back, when it does so for each value. */
  lemma {:induction false} DecodeEachInverts<T>(xs: seq<T>, encode: T -> Json, decode: Json -> Result<T, LoadError>)
    requires forall k :: 0 <= k < |xs| ==> decode(encode(xs[k])) == Ok(xs[k])
    ensures DecodeEach(EncodeEach(xs, encode), decode) == Ok(xs)
  {
    if xs != [] {
      var n := |xs|;
      assert EncodeEach(xs, encode)[..n - 1] == EncodeEach(xs[..n - 1], encode);
      DecodeEachInverts(xs[..n - 1], encode, decode);
      assert xs == xs[..n - 1] + [xs[n - 1]];
    }
  }
}

=== FILE: ledger.dfy ===
/**
 * The activity ledger (moni.py lines 20-143): an ordered list of named
 * activities, each with its ordered time entries; how it is written to and
 * read back from the ledger document; and how the monitor credits a closed
 * interval to an activity (lines 309-317).
 */
module Ledger {
  import opened Wrappers
  import opened JsonDoc
  import opened TimeEntries

  /** `Activity`: a name and the entries credited to it, oldest first. */
  datatype Activity = Activity(name: string, timeEntries: seq<TimeEntry>)

  /** `Activity.serialize`. */
  function SerializeActivity(a: Activity): (r: Json)
    ensures r.JObject? && r.fields.Keys == {"name", "time_entries"}
    ensures r.fields["name"] == JStr(a.name)
    ensures r.fields["time_entries"].JList? && |r.fields["time_entries"].items| == |a.timeEntries|
  {
    JObject(map["name" := JStr(a.name), "time_entries" := JList(EntriesToJson(a.timeEntries))])
  }

  /** `ActivityList.activities_to_json`. */
  function ActivitiesToJson(activities: seq<Activity>): (r: seq<Json>)
    ensures |r| == |activities|
    ensures forall k :: 0 <= k < |activities| ==> r[k] == SerializeActivity(activities[k])
  {
    EncodeEach(activities, SerializeActivity)
  }

  /** `ActivityList.serialize`: the whole ledger document. */
  function SerializeLedger(activities: seq<Activity>): (r: Json)
    ensures r.JObject? && r.fields.Keys == {"activities"}
    ensures r.fields["activities"].JList? && |r.fields["activities"].items| == |activities|
  {
    JObject(map["activities" := JList(ActivitiesToJson(activities))])
  }

  /** `get_time_entries_from_json` on one activity record. */
  function DecodeTimeEntries(data: Json): (r: Result<seq<TimeEntry>, LoadError>)
    ensures data.JObject? && "time_entries" !in data.fields ==> r == Err(KeyError("time_entries"))
    ensures r.Ok? ==> data.JObject? && "time_entries" in data.fields
    ensures r.Ok? && r.value != [] ==>
      data.fields["time_entries"].JList? && |r.value| == |data.fields["time_entries"].items|
  {
    var field :- Get(data, "time_entries");
    var items :- Elements(field);
    DecodeEach(items, DecodeEntry)
  }

  /** One turn of `get_activities_from_json`'s loop: the name first, then
      the entries. */
  function DecodeActivity(j: Json): (r: Result<Activity, LoadError>)
    ensures j.JObject? && "name" !in j.fields ==> r == Err(KeyError("name"))
    ensures r.Ok? ==> j.JObject? && "name" in j.fields && j.fields["name"] == JStr(r.value.name)
    ensures r.Ok? ==> DecodeTimeEntries(j) == Ok(r.value.timeEntries)
  {
    var nameField :- Get(j, "name");
    var name :- AsString(nameField);
    var entries :- DecodeTimeEntries(j);
    Ok(Activity(name, entries))
  }

  /** `get_activities_from_json` on a whole ledger document. */
  function DecodeLedger(data: Json): (r: Result<seq<Activity>, LoadError>)
    ensures data.JObject? && "activities" !in data.fields ==> r == Err(KeyError("activities"))
    ensures r.Ok? ==> data.JObject? && "activities" in data.fields
    ensures r.Ok? && r.value != [] ==>
      data.fields["activities"].JList? && |r.value| == |data.fields["activities"].items|
  {
    var field :- Get(data, "activities");
    var items :- Elements(field);
    DecodeEach(items, DecodeActivity)
  }

  /** Reading back one serialised activity gives its name and every entry. */
  lemma ActivityRoundTrip(a: Activity)
    ensures DecodeActivity(SerializeActivity(a)) == Ok(a)
  {
    EntryListRoundTrip(a.timeEntries);
  }

  /** Reading back the serialised ledger gives the same activities, in the
      same order, each with the same entries: the document round-trips. */
  lemma LedgerRoundTrip(activities: seq<Activity>)
    ensures DecodeLedger(SerializeLedger(activities)) == Ok(activities)
  {
    forall k | 0 <= k < |activities|
      ensures DecodeActivity(SerializeActivity(activities[k])) == Ok(activities[k])
    {
      ActivityRoundTrip(activities[k]);
    }
    DecodeEachInverts(activities, SerializeActivity, DecodeActivity);
  }

  /** `ActivityList`: the ledger object the monitor owns and appends to. */
  class ActivityList {
    var activities: seq<Activity>

    constructor (activities: seq<Activity>)
      ensures this.activities == activities
    {
      this.activities := activities;
    }

    /** `get_time_entries_from_json`: reads the entries of one activity
        record with an append loop, or fails as the first bad record does. */
    method GetTimeEntriesFromJson(data: Json) returns (r: Result<seq<TimeEntry>, LoadError>)
      ensures r == DecodeTimeEntries(data)
    {
      var field :- Get(data, "time_entries");
      var items :- Elements(field);
      var returnList: seq<TimeEntry> := [];
      var i := 0;
      while i < |items|
        invariant 0 <= i <= |items|
        invariant DecodeEach(items[..i], DecodeEntry) == Ok(returnList)
      {
        var entry := DecodeEntry(items[i]);
        DecodeEachExtend(items, DecodeEntry, i);
        if entry.Err? {
          DecodeEachStops(items, DecodeEntry, i + 1);
          return Err(entry.error);
        }
        returnList := returnList + [entry.value];
        i := i + 1;
      }
      assert items[..i] == items;
      r := Ok(returnList);
    }

    /** `get_activities_from_json`: reads every activity with an append loop
        and, only once all are read, makes them this ledger's activities. */
    method GetActivitiesFromJson(data: Json) returns (r: Result<seq<Activity>, LoadError>)
      modifies this
      ensures r == DecodeLedger(data)
      ensures activities == if r.Ok? then r.value else old(activities)
    {
      var field :- Get(data, "activities");
      var items :- Elements(field);
      var returnList: seq<Activity> := [];
      var i := 0;
      while i < |items|
        invariant 0 <= i <= |items|
        invariant DecodeEach(items[..i], DecodeActivity) == Ok(returnList)
        invariant activities == old(activities)
      {
        var nameField := Get(items[i], "name");
        var name := if nameField.Ok? then AsString(nameField.value) else Err(nameField.error);
        var entries := Err(TypeError);
        if name.Ok? {
          entries := GetTimeEntriesFromJson(items[i]);
        }
        DecodeEachExtend(items, DecodeActivity, i);
        if name.Err? || entries.Err? {
          DecodeEachStops(items, DecodeActivity, i + 1);
          return if name.Err? then Err(name.error) else Err(entries.error);
        }
        returnList := returnList + [Activity(name.value, entries.value)];
        i := i + 1;
      }
      assert items[..i] == items;
      activities := returnList;
      r := Ok(returnList);
    }

    /** `initialize_me`: loads the ledger document, `None` when the file is
        missing, empty or not JSON. On success it returns a new ledger and,
        through `get_activities_from_json`, also replaces this one's
        activities; on any failure it raises and this ledger is unchanged. */
    method InitializeMe(stored: Option<Json>) returns (r: Result<ActivityList, LoadError>)
      modifies this
      ensures r.Ok? <==> stored.Some? && DecodeLedger(stored.value).Ok?
      ensures r.Ok? ==> fresh(r.value) && r.value.activities == activities == DecodeLedger(stored.value).value
      ensures r.Err? ==> activities == old(activities)
    {
      if stored.None? {
        return Err(Unreadable);
      }
      var loaded := GetActivitiesFromJson(stored.value);
      if loaded.Err? {
        return Err(loaded.error);
      }
      var activityList := new ActivityList(loaded.value);
      r := Ok(activityList);
    }
  }

  // ---------------------------------------------------------------------
  // Crediting a closed interval to an activity (moni.py lines 309-317)
  // ---------------------------------------------------------------------

  /** The activity names, in ledger order. */
  function Names(activities: seq<Activity>): (r: seq<string>)
    ensures |r| == |activities|
    ensures forall k :: 0 <= k < |activities| ==> r[k] == activities[k].name
  {
    seq(|activities|, k requires 0 <= k < |activities| => activities[k].name)
  }

  /** No two activities share a name. */
  ghost predicate UniqueNames(activities: seq<Activity>)
  {
    forall i, j :: 0 <= i < j < |activities| ==> activities[i].name != activities[j].name
  }

  /** `entry` appended to every activity called `name`; the others as they were. */
  function AppendWhereNamed(activities: seq<Activity>, name: string, entry: TimeEntry): seq<Activity>
  {
    seq(|activities|, k requires 0 <= k < |activities| =>
      if activities[k].name == name
      then Activity(name, activities[k].timeEntries + [entry])
      else activities[k])
  }

  /** The ledger after the monitor credits `entry` to `name`, as the merge
      loop is written: appended to every activity of that name, or to a new
      activity at the end when there is none. */
  function Merged(activities: seq<Activity>, name: string, entry: TimeEntry): (r: seq<Activity>)
    ensures name in Names(r)
    ensures |r| == if name in Names(activities) then |activities| else |activities| + 1
    ensures forall k :: 0 <= k < |activities| && activities[k].name != name ==> r[k] == activities[k]
    ensures forall k :: 0 <= k < |activities| && activities[k].name == name ==>
      r[k] == Activity(name, activities[k].timeEntries + [entry])
  {
    if name in Names(activities) then
      assert Names(AppendWhereNamed(activities, name, entry)) == Names(activities);
      AppendWhereNamed(activities, name, entry)
    else
      var r := activities + [Activity(name, [entry])];
      assert Names(r)[|activities|] == name;
      r
  }

  /** Merging into the activity at index `k` that holds the name appends
      the entry to the end of its entries and leaves every other activity
      as it was. */
  lemma MergeIntoExisting(activities: seq<Activity>, name: string, entry: TimeEntry, k: nat)
    requires UniqueNames(activities)
    requires k < |activities| && activities[k].name == name
    ensures |Merged(activities, name, entry)| == |activities|
    ensures Merged(activities, name, entry)[k] == Activity(name, activities[k].timeEntries + [entry])
    ensures forall i :: 0 <= i < |activities| && i != k ==> Merged(activities, name, entry)[i] == activities[i]
  {
    assert Names(activities)[k] == name;
  }

  /** Merging a name the ledger lacks adds one activity holding just the
      entry, at the end. */
  lemma MergeNewName(activities: seq<Activity>, name: string, entry: TimeEntry)
    requires forall k :: 0 <= k < |activities| ==> activities[k].name != name
    ensures Merged(activities, name, entry) == activities + [Activity(name, [entry])]
  {
  }

  /** Merging keeps names unique and keeps their first-seen order: the
      name list is unchanged, or grows by the new name at the end. */
  lemma MergeKeepsNames(activities: seq<Activity>, name: string, entry: TimeEntry)
    requires UniqueNames(activities)
    ensures UniqueNames(Merged(activities, name, entry))
    ensures Names(Merged(activities, name, entry)) ==
      if name in Names(activities) then Names(activities) else Names(activities) + [name]
  {
    var m := Merged(activities, name, entry);
    if name in Names(activities) {
      assert Names(m) == Names(activities);
    } else {
      assert Names(m) == Names(activities) + [name];
    }
  }

  /** The number of time entries over all activities. */
  function EntryCount(activities: seq<Activity>): nat
  {
    if activities == [] then 0
    else EntryCount(activities[..|activities| - 1]) + |activities[|activities| - 1].timeEntries|
  }

  /** The number of activities called `name`. */
  function NameCount(activities: seq<Activity>, name: string): (r: nat)
    ensures r == 0 <==> name !in Names(activities)
  {
    if activities == [] then 0
    else
      var init := activities[..|activities| - 1];
      assert Names(activities) == Names(init) + [activities[|activities| - 1].name];
      NameCount(init, name) + if activities[|activities| - 1].name == name then 1 else 0
  }

  /** As written, the merge adds one entry per activity of that name. */
  lemma {:induction false} AppendWhereNamedCount(activities: seq<Activity>, name: string, entry: TimeEntry)
    ensures EntryCount(AppendWhereNamed(activities, name, entry)) == EntryCount(activities) + NameCount(activities, name)
  {
    if activities != [] {
      var n := |activities|;
      var init := activities[..n - 1];
      assert AppendWhereNamed(activities, name, entry)[..n - 1] == AppendWhereNamed(init, name, entry);
      AppendWhereNamedCount(init, name, entry);
    }
  }

  /** A name held by no two activities is held by at most one. */
  lemma {:induction false} UniqueNameCount(activities: seq<Activity>, name: string)
    requires UniqueNames(activities)
    ensures NameCount(activities, name) <= 1
  {
    if activities != [] {
      var n := |activities|;
      var init := activities[..n - 1];
      UniqueNameCount(init, name);
    }
  }

  /** With unique names, merging adds exactly one time entry to the ledger. */
  lemma MergeAddsOneEntry(activities: seq<Activity>, name: string, entry: TimeEntry)
    requires UniqueNames(activities)
    ensures EntryCount(Merged(activities, name, entry)) == EntryCount(activities) + 1
  {
    if name in Names(activities) {
      AppendWhereNamedCount(activities, name, entry);
      UniqueNameCount(activities, name);
    } else {
      var m := activities + [Activity(name, [entry])];
      assert m[..|m| - 1] == activities;
    }
  }

  /** Every entry of the ledger holds the split `_get_specific_times` makes. */
  ghost predicate AllNormalised(activities: seq<Activity>)
  {
    forall k, j :: 0 <= k < |activities| && 0 <= j < |activities[k].timeEntries| ==>
      Normalised(activities[k].timeEntries[j])
  }

  /** Crediting a normalised entry keeps every entry of the ledger normalised. */
  lemma MergeKeepsNormalised(activities: seq<Activity>, name: string, entry: TimeEntry)
    requires AllNormalised(activities) && Normalised(entry)
    ensures AllNormalised(Merged(activities, name, entry))
  {
    var m := Merged(activities, name, entry);
    forall k, j | 0 <= k < |m| && 0 <= j < |m[k].timeEntries|
      ensures Normalised(m[k].timeEntries[j])
    {
      if k < |activities| && j < |activities[k].timeEntries| {
        assert m[k].timeEntries[j] == activities[k].timeEntries[j];
      }
    }
  }
}

=== FILE: monitor.dfy ===
/**
 * The monitoring loop `record` (moni.py lines 276-330) and its start in
 * `mainRecord` (lines 334-340), one poll at a time. The window title and the
 * Chrome address bar read at a poll, and the clock, are inputs of a step.
 * The `monitoring` table is the append-only log `sink`; the ledger file is
 * `stored`, the document last written to it.
 */
module Monitoring {
  import opened Wrappers
  import opened JsonDoc
  import opened WindowName
  import opened TimeEntries
  import opened Ledger

  /** A row of the `monitoring` table: `m_title`, `m_log_ts`, `e_id_id`, `o_id_id`.
      The two ids are passed through as the caller's JSON values. */
  datatype SinkRow = SinkRow(title: string, timestamp: int, employeeId: Json, organizationId: Json)

  class Monitor {
    /** `active_window_name`: the activity current since the last transition. */
    var activeWindowName: string
    /** `start_time`: when the open interval began. */
    var startTime: int
    /** `first_time`: no transition has happened yet. */
    var firstTime: bool
    /** `activeList`: the ledger the loop credits intervals to. */
    const activeList: ActivityList
    /** The contents of `activities.json`: `None` when missing, empty or not JSON. */
    var stored: Option<Json>
    /** The rows inserted into the `monitoring` table, oldest first. */
    ghost var sink: seq<SinkRow>
    const employeeId: Json
    const organizationId: Json

    /** `mainRecord` and the start of `record`: no current activity, the
        clock read once, and the ledger loaded from the file, or left empty
        when loading raises. */
    constructor (stored: Option<Json>, now: int, employeeId: Json, organizationId: Json)
      ensures activeWindowName == "" && startTime == now && firstTime
      ensures this.stored == stored && sink == []
      ensures this.employeeId == employeeId && this.organizationId == organizationId
      ensures fresh(activeList)
      ensures activeList.activities ==
        if stored.Some? && DecodeLedger(stored.value).Ok? then DecodeLedger(stored.value).value else []
    {
      activeWindowName := "";
      startTime := now;
      activeList := new ActivityList([]);
      firstTime := true;
      this.stored := stored;
      sink := [];
      this.employeeId := employeeId;
      this.organizationId := organizationId;
      new;
      var loaded := activeList.InitializeMe(stored);
    }

    /** The merge of lines 309-317: the entry is appended to each activity
        named `activityName`, or a new activity holding it is appended to the
        ledger when none is. */
    method MergeEntry(activityName: string, timeEntry: TimeEntry)
      modifies activeList
      ensures activeList.activities == Merged(old(activeList.activities), activityName, timeEntry)
    {
      ghost var before := activeList.activities;
      var found := false;
      var i := 0;
      while i < |activeList.activities|
        invariant 0 <= i <= |activeList.activities| == |before|
        invariant forall k :: 0 <= k < i ==>
          activeList.activities[k] == AppendWhereNamed(before, activityName, timeEntry)[k]
        invariant forall k :: i <= k < |before| ==> activeList.activities[k] == before[k]
        invariant found <==> activityName in Names(before[..i])
      {
        assert Names(before[..i + 1]) == Names(before[..i]) + [before[i].name];
        if activeList.activities[i].name == activityName {
          found := true;
          var activity := activeList.activities[i];
          activeList.activities := activeList.activities[i := Activity(activity.name, activity.timeEntries + [timeEntry])];
        }
        i := i + 1;
      }
      assert before[..i] == before;
      if !found {
        activeList.activities := activeList.activities + [Activity(activityName, [timeEntry])];
      } else {
        assert activeList.activities == AppendWhereNamed(before, activityName, timeEntry);
      }
    }

    /** One poll of the loop (lines 284-324). The name is resolved from the
        title, or from the address bar for a Chrome window. The same name as
        before changes nothing. A new name logs one row titled with the
        previous name; after the first transition it also closes the
        interval `[startTime, now]`, credits it to the previous name, writes
        the ledger to the file and opens the next interval at `now`. */
    method Step(title: string, addressBar: string, now: int)
      modifies this, activeList
      ensures activeWindowName == ResolvedName(title, addressBar)
      ensures old(activeWindowName) == activeWindowName ==>
        && firstTime == old(firstTime) && startTime == old(startTime)
        && sink == old(sink) && stored == old(stored)
        && activeList.activities == old(activeList.activities)
      ensures old(activeWindowName) != activeWindowName ==>
        && !firstTime
        && sink == old(sink) + [SinkRow(old(activeWindowName), now, employeeId, organizationId)]
      ensures old(activeWindowName) != activeWindowName && old(firstTime) ==>
        && startTime == old(startTime) && stored == old(stored)
        && activeList.activities == old(activeList.activities)
      ensures old(activeWindowName) != activeWindowName && !old(firstTime) ==>
        && startTime == now
        && stored == Some(SerializeLedger(activeList.activities))
        && DecodeLedger(stored.value) == Ok(activeList.activities)
        && exists e: TimeEntry :: e.start == old(startTime) && e.end == now && Normalised(e)
                       && activeList.activities == Merged(old(activeList.activities), old(activeWindowName), e)
      ensures UniqueNames(old(activeList.activities)) ==> UniqueNames(activeList.activities)
      ensures AllNormalised(old(activeList.activities)) ==> AllNormalised(activeList.activities)
    {
      var newWindowName := title;
      if ContainsText(title, Chrome) {
        AddressBarHost(addressBar);
        newWindowName := UrlToName("https://" + addressBar).value;
      }
      if activeWindowName != newWindowName {
        var activityName := activeWindowName;
        sink := sink + [SinkRow(activityName, now, employeeId, organizationId)];
        if !firstTime {
          var endTime := now;
          var timeEntry := GetSpecificTimes(TimeEntry(startTime, endTime, 0, 0, 0, 0));
          ghost var before := activeList.activities;
          MergeEntry(activityName, timeEntry);
          if UniqueNames(before) {
            MergeKeepsNames(before, activityName, timeEntry);
          }
          if AllNormalised(before) {
            MergeKeepsNormalised(before, activityName, timeEntry);
          }
          stored := Some(SerializeLedger(activeList.activities));
          LedgerRoundTrip(activeList.activities);
          startTime := now;
        }
        firstTime := false;
        activeWindowName := newWindowName;
      }
    }

    /** The `KeyboardInterrupt` handler: the ledger is written to the file as
        it stands; the interval still open is dropped. */
    method Stop()
      modifies this`stored
      ensures stored == Some(SerializeLedger(activeList.activities))
      ensures DecodeLedger(stored.value) == Ok(activeList.activities)
    {
      stored := Some(SerializeLedger(activeList.activities));
      LedgerRoundTrip(activeList.activities);
    }
  }
}

=== FILE: report.dfy ===
/**
 * `show_activity` (moni.py lines 237-267): per-activity totals read from the
 * ledger document, which the teardown replays into the sink as one summary
 * row per activity.
 */
module Report {
  import opened Wrappers
  import opened JsonDoc
  import opened TimeEntries
  import opened Ledger

  /** How `show_activity` ends without a result: the `try` around loading the
      document prints "no json data" and exits, while a failure in the loops
      after it raises. */
  datatype ShowError = NoJsonData | Raised(cause: LoadError)

  /** `i['name']`, taken as stored. */
  function ActivityName(j: Json): Result<Json, LoadError>
  {
    Get(j, "name")
  }

  /** One entry's contribution to its activity's total:
      `int(minutes) * 60 + int(seconds) + int(hours) * 3600`, in that order. */
  function EntryJsonSeconds(j: Json): Result<int, LoadError>
  {
    var minutesField :- Get(j, "minutes");
    var minutes :- IntOf(minutesField);
    var secondsField :- Get(j, "seconds");
    var seconds :- IntOf(secondsField);
    var hoursField :- Get(j, "hours");
    var hours :- IntOf(hoursField);
    Ok(minutes * 60 + seconds + hours * 3600)
  }

  function Sum(xs: seq<int>): int
  {
    if xs == [] then 0 else Sum(xs[..|xs| - 1]) + xs[|xs| - 1]
  }

  /** The sum over a list of entry records of their contributions. */
  function EntryListSeconds(entries: seq<Json>): Result<int, LoadError>
  {
    var parts :- DecodeEach(entries, EntryJsonSeconds);
    Ok(Sum(parts))
  }

  /** `sed` after the inner loop: the sum over the activity's entries. */
  function ActivityJsonSeconds(j: Json): Result<int, LoadError>
  {
    var field :- Get(j, "time_entries");
    var entries :- Elements(field);
    EntryListSeconds(entries)
  }

  function Zip<A, B>(xs: seq<A>, ys: seq<B>): (r: seq<(A, B)>)
    requires |xs| == |ys|
    ensures |r| == |xs|
    ensures forall k :: 0 <= k < |xs| ==> r[k] == (xs[k], ys[k])
  {
    seq(|xs|, k requires 0 <= k < |xs| => (xs[k], ys[k]))
  }

  /** What `show_activity` returns for a stored document (`None` when the
      file is missing, empty or not JSON): the names of the activities
      zipped with their totals. */
  function SummaryOfDocument(stored: Option<Json>): (r: Result<seq<(Json, int)>, ShowError>)
    ensures r == Err(NoJsonData) <==> stored.None? || Get(stored.value, "activities").Err?
    ensures r.Ok? ==> stored.Some? && Get(stored.value, "activities").Ok?
    ensures r.Ok? && r.value != [] ==>
      var field := Get(stored.value, "activities").value;
      field.JList? && |r.value| == |field.items|
  {
    match stored
    case None => Err(NoJsonData)
    case Some(doc) =>
      match Get(doc, "activities")
      case Err(_) => Err(NoJsonData)
      case Ok(field) =>
        match Elements(field)
        case Err(c) => Err(Raised(c))
        case Ok(items) =>
          match DecodeEach(items, ActivityName)
          case Err(c) => Err(Raised(c))
          case Ok(names) =>
            match DecodeEach(items, ActivityJsonSeconds)
            case Err(c) => Err(Raised(c))
            case Ok(totals) => Ok(Zip(names, totals))
  }

  /** `show_activity`: collects the names in one loop and the totals in a
      second, nested one, then pairs them up. */
  method ShowActivity(stored: Option<Json>) returns (r: Result<seq<(Json, int)>, ShowError>)
    ensures r == SummaryOfDocument(stored)
  {
    if stored.None? {
      return Err(NoJsonData);
    }
    var field := Get(stored.value, "activities");
    if field.Err? {
      return Err(NoJsonData);
    }
    var e := Elements(field.value);
    if e.Err? {
      return Err(Raised(e.error));
    }
    var items := e.value;

    var b: seq<Json> := [];
    var i := 0;
    while i < |items|
      invariant 0 <= i <= |items|
      invariant DecodeEach(items[..i], ActivityName) == Ok(b)
    {
      var name := Get(items[i], "name");
      DecodeEachExtend(items, ActivityName, i);
      if name.Err? {
        DecodeEachStops(items, ActivityName, i + 1);
        return Err(Raised(name.error));
      }
      b := b + [name.value];
      i := i + 1;
    }
    assert items[..i] == items;

    var d: seq<int> := [];
    i := 0;
    while i < |items|
      invariant 0 <= i <= |items|
      invariant DecodeEach(items[..i], ActivityJsonSeconds) == Ok(d)
    {
      DecodeEachExtend(items, ActivityJsonSeconds, i);
      var sed := ActivityTotal(items[i]);
      if sed.Err? {
        DecodeEachStops(items, ActivityJsonSeconds, i + 1);
        return Err(Raised(sed.error));
      }
      d := d + [sed.value];
      i := i + 1;
    }
    assert items[..i] == items;
    r := Ok(Zip(b, d));
  }

  /** The inner loop of `show_activity` for one activity record. */
  method ActivityTotal(activity: Json) returns (r: Result<int, LoadError>)
    ensures r == ActivityJsonSeconds(activity)
  {
    var field :- Get(activity, "time_entries");
    var entries :- Elements(field);
    r := SumEntrySeconds(entries);
  }

  /** `sed = sed + ...` over the entries of one activity. */
  method SumEntrySeconds(entries: seq<Json>) returns (r: Result<int, LoadError>)
    ensures r == EntryListSeconds(entries)
  {
    var sed := 0;
    ghost var parts: seq<int> := [];
    var j := 0;
    while j < |entries|
      invariant 0 <= j <= |entries|
      invariant DecodeEach(entries[..j], EntryJsonSeconds) == Ok(parts)
      invariant sed == Sum(parts)
    {
      var x := EntryJsonSeconds(entries[j]);
      DecodeEachExtend(entries, EntryJsonSeconds, j);
      if x.Err? {
        DecodeEachStops(entries, EntryJsonSeconds, j + 1);
        return Err(x.error);
      }
      assert (parts + [x.value])[..|parts|] == parts;
      parts := parts + [x.value];
      sed := sed + x.value;
      j := j + 1;
    }
    assert entries[..j] == entries;
    r := Ok(sed);
  }

  // ---------------------------------------------------------------------
  // The same totals stated on the ledger itself
  // ---------------------------------------------------------------------

  /** The seconds credited to a list of entries, `days` not added again. */
  function EntriesSeconds(entries: seq<TimeEntry>): int
  {
    if entries == [] then 0
    else EntriesSeconds(entries[..|entries| - 1]) + entries[|entries| - 1].Seconds()
  }

  /** The elapsed time of a list of entries. */
  function EntriesElapsed(entries: seq<TimeEntry>): int
  {
    if entries == [] then 0
    else EntriesElapsed(entries[..|entries| - 1]) + entries[|entries| - 1].TotalTime()
  }

  /** The per-entry contributions of a serialised entry list add up to the
      seconds credited to the entries. */
  lemma {:induction false} SerialisedEntriesSeconds(entries: seq<TimeEntry>)
    ensures ActivityJsonSeconds(JObject(map["time_entries" := JList(EntriesToJson(entries))]))
      == Ok(EntriesSeconds(entries))
  {
    var items := EntriesToJson(entries);
    var parts := seq(|entries|, k requires 0 <= k < |entries| => entries[k].Seconds());
    assert DecodeEach(items, EntryJsonSeconds) == Ok(parts) by {
      assert forall k :: 0 <= k < |items| ==> EntryJsonSeconds(items[k]) == Ok(parts[k]);
      DecodeEachMeaning(items, EntryJsonSeconds);
      assert DecodeEach(items, EntryJsonSeconds).value == parts;
    }
    SumOfSeconds(entries);
  }

  /** Summing the per-entry seconds is `EntriesSeconds`. */
  lemma {:induction false} SumOfSeconds(entries: seq<TimeEntry>)
    ensures Sum(seq(|entries|, k requires 0 <= k < |entries| => entries[k].Seconds())) == EntriesSeconds(entries)
  {
    if entries != [] {
      var n := |entries|;
      var parts := seq(|entries|, k requires 0 <= k < |entries| => entries[k].Seconds());
      assert parts[..n - 1] == seq(n - 1, k requires 0 <= k < n - 1 => entries[..n - 1][k].Seconds());
      SumOfSeconds(entries[..n - 1]);
    }
  }

  /** `show_activity` on a document the monitor wrote gives, per activity
      and in ledger order, its name and the sum over its entries of
      `hours * 3600 + minutes * 60 + seconds`. */
  lemma ShowSerialisedLedger(activities: seq<Activity>)
    ensures SummaryOfDocument(Some(SerializeLedger(activities))).Ok?
    ensures var rows := SummaryOfDocument(Some(SerializeLedger(activities))).value;
      && |rows| == |activities|
      && forall k :: 0 <= k < |activities| ==>
           rows[k] == (JStr(activities[k].name), EntriesSeconds(activities[k].timeEntries))
  {
    var items := ActivitiesToJson(activities);
    forall k | 0 <= k < |items|
      ensures ActivityName(items[k]) == Ok(JStr(activities[k].name))
      ensures ActivityJsonSeconds(items[k]) == Ok(EntriesSeconds(activities[k].timeEntries))
    {
      var a := activities[k];
      assert ActivityJsonSeconds(items[k])
        == ActivityJsonSeconds(JObject(map["time_entries" := JList(EntriesToJson(a.timeEntries))]));
      SerialisedEntriesSeconds(a.timeEntries);
    }
    DecodeEachMeaning(items, ActivityName);
    DecodeEachMeaning(items, ActivityJsonSeconds);
  }

  /** Entries whose fields `_get_specific_times` computed add up to their
      elapsed time: no interval is counted twice through `days`. */
  lemma {:induction false} NormalisedSecondsAreElapsed(entries: seq<TimeEntry>)
    requires forall k :: 0 <= k < |entries| ==> Normalised(entries[k])
    ensures EntriesSeconds(entries) == EntriesElapsed(entries)
  {
    if entries != [] {
      NormalisedSecondsAreElapsed(entries[..|entries| - 1]);
    }
  }
}

=== FILE: scenario.dfy ===
/**
 * A client of the monitor: a short session driven through `Step` and
 * `Stop`, and what the contracts alone let a caller conclude about the
 * rows logged, the ledger and the totals `show_activity` reports.
 */
module Scenario {
  import opened Wrappers
  import opened JsonDoc
  import opened WindowName
  import opened TimeEntries
  import opened Ledger
  import opened Report
  import opened Monitoring

  const ChromeTitle: string := "example.com - Google Chrome"
  const AddressBar: string := "example.com/mail"

  /** A Chrome window showing `https://example.com/mail` is the activity
      `example.com`. */
  lemma ChromeTabIsItsHost()
    ensures ResolvedName(ChromeTitle, AddressBar) == "example.com"
  {
    assert OccursAt(ChromeTitle, Chrome, 14);
    UrlToNameGivesHost("example.com", "/mail");
    assert "https://" + AddressBar == "https://" + "example.com" + "/mail";
  }

  /** Crediting Editor, then example.com, then Editor again gives two
      activities in first-seen order, Editor holding both of its entries. */
  lemma EditorBrowserEditorLedger(e1: TimeEntry, e2: TimeEntry, e3: TimeEntry)
    ensures Merged([], "Editor", e1) == [Activity("Editor", [e1])]
    ensures Merged([Activity("Editor", [e1])], "example.com", e2)
      == [Activity("Editor", [e1]), Activity("example.com", [e2])]
    ensures Merged([Activity("Editor", [e1]), Activity("example.com", [e2])], "Editor", e3)
      == [Activity("Editor", [e1, e3]), Activity("example.com", [e2])]
  {
    var two := [Activity("Editor", [e1]), Activity("example.com", [e2])];
    assert Names([Activity("Editor", [e1])]) == ["Editor"];
    assert Names(two) == ["Editor", "example.com"];
    MergeIntoExisting(two, "Editor", e3, 0);
    var m := Merged(two, "Editor", e3);
    assert m[0] == Activity("Editor", [e1, e3]) && m[1] == two[1];
  }

  /** The seconds credited to Editor's two entries and to example.com's one. */
  lemma EditorBrowserEditorSeconds(e1: TimeEntry, e2: TimeEntry, e3: TimeEntry)
    requires Normalised(e1) && e1.TotalTime() == 10
    requires Normalised(e2) && e2.TotalTime() == 5
    requires Normalised(e3) && e3.TotalTime() == 3
    ensures EntriesSeconds([e1, e3]) == 13 && EntriesSeconds([e2]) == 5
  {
    assert [e1, e3][..1] == [e1] && [e1][..0] == [] && [e2][..0] == [];
    assert EntriesSeconds([e1]) == EntriesSeconds([]) + e1.Seconds() == 10;
    assert EntriesSeconds([e1, e3]) == EntriesSeconds([e1]) + e3.Seconds();
    assert EntriesSeconds([e2]) == EntriesSeconds([]) + e2.Seconds();
  }

  /** The totals of that ledger: 10 + 3 seconds of Editor, 5 of example.com. */
  lemma EditorBrowserEditorTotals(e1: TimeEntry, e2: TimeEntry, e3: TimeEntry)
    requires Normalised(e1) && e1.TotalTime() == 10
    requires Normalised(e2) && e2.TotalTime() == 5
    requires Normalised(e3) && e3.TotalTime() == 3
    ensures SummaryOfDocument(Some(SerializeLedger([Activity("Editor", [e1, e3]), Activity("example.com", [e2])])))
      == Ok([(JStr("Editor"), 13), (JStr("example.com"), 5)])
  {
    var ledger := [Activity("Editor", [e1, e3]), Activity("example.com", [e2])];
    EditorBrowserEditorSeconds(e1, e2, e3);
    ShowSerialisedLedger(ledger);
    var rows := SummaryOfDocument(Some(SerializeLedger(ledger))).value;
    assert rows[0] == (JStr("Editor"), 13) && rows[1] == (JStr("example.com"), 5);
    assert rows == [(JStr("Editor"), 13), (JStr("example.com"), 5)];
  }

  /** The monitor started with no ledger file, polled twice while Editor
      is in front: the first poll only logs the start, the second nothing. */
  method StartInEditor() returns (m: Monitor)
    ensures fresh(m) && fresh(m.activeList)
    ensures m.activeWindowName == "Editor" && m.startTime == 0 && !m.firstTime
    ensures m.activeList.activities == []
    ensures m.sink == [SinkRow("", 0, JStr("employee"), JStr("organization"))]
    ensures m.employeeId == JStr("employee") && m.organizationId == JStr("organization")
  {
    m := new Monitor(None, 0, JStr("employee"), JStr("organization"));
    m.Step("Editor", "", 0);
    m.Step("Editor", "", 5);
  }

  /** Switching from Editor to a Chrome tab at 10 seconds credits
      `[0, 10]` to Editor. */
  method OpenChromeTab(m: Monitor) returns (ghost e1: TimeEntry)
    requires m.activeWindowName == "Editor" && m.startTime == 0 && !m.firstTime
    requires m.activeList.activities == []
    modifies m, m.activeList
    ensures m.activeWindowName == "example.com" && m.startTime == 10 && !m.firstTime
    ensures e1.start == 0 && e1.end == 10 && Normalised(e1)
    ensures m.activeList.activities == [Activity("Editor", [e1])]
    ensures m.sink == old(m.sink) + [SinkRow("Editor", 10, m.employeeId, m.organizationId)]
  {
    ChromeTabIsItsHost();
    m.Step(ChromeTitle, AddressBar, 10);
    e1 :| e1.start == 0 && e1.end == 10 && Normalised(e1)
      && m.activeList.activities == Merged([], "Editor", e1);
  }

  /** Back to Editor at 15 seconds credits `[10, 15]` to example.com, a new
      activity after Editor. */
  method BackToEditor(m: Monitor, ghost e1: TimeEntry) returns (ghost e2: TimeEntry)
    requires m.activeWindowName == "example.com" && m.startTime == 10 && !m.firstTime
    requires m.activeList.activities == [Activity("Editor", [e1])]
    modifies m, m.activeList
    ensures m.activeWindowName == "Editor" && m.startTime == 15 && !m.firstTime
    ensures e2.start == 10 && e2.end == 15 && Normalised(e2)
    ensures m.activeList.activities == [Activity("Editor", [e1]), Activity("example.com", [e2])]
    ensures m.sink == old(m.sink) + [SinkRow("example.com", 15, m.employeeId, m.organizationId)]
  {
    m.Step("Editor", "", 15);
    e2 :| e2.start == 10 && e2.end == 15 && Normalised(e2)
      && m.activeList.activities == Merged([Activity("Editor", [e1])], "example.com", e2);
    EditorBrowserEditorLedger(e1, e2, e2);
  }

  /** Switching to Terminal at 18 seconds credits `[15, 18]` to Editor, which
      now holds two entries. */
  method SwitchToTerminal(m: Monitor, ghost e1: TimeEntry, ghost e2: TimeEntry) returns (ghost e3: TimeEntry)
    requires m.activeWindowName == "Editor" && m.startTime == 15 && !m.firstTime
    requires m.activeList.activities == [Activity("Editor", [e1]), Activity("example.com", [e2])]
    modifies m, m.activeList
    ensures m.activeWindowName == "Terminal" && m.startTime == 18
    ensures e3.start == 15 && e3.end == 18 && Normalised(e3)
    ensures m.activeList.activities == [Activity("Editor", [e1, e3]), Activity("example.com", [e2])]
    ensures m.sink == old(m.sink) + [SinkRow("Editor", 18, m.employeeId, m.organizationId)]
  {
    m.Step("Terminal", "", 18);
    e3 :| e3.start == 15 && e3.end == 18 && Normalised(e3)
      && m.activeList.activities == Merged([Activity("Editor", [e1]), Activity("example.com", [e2])], "Editor", e3);
    EditorBrowserEditorLedger(e1, e2, e3);
  }

  /** Editor for 10 seconds, a Chrome tab on example.com for 5, Editor
      again for 3, then a switch away and an interrupt: four rows are logged,
      and the summary credits 13 seconds to Editor and 5 to example.com. */
  method EditorBrowserEditor()
  {
    var m := StartInEditor();
    ghost var e1 := OpenChromeTab(m);
    ghost var e2 := BackToEditor(m, e1);
    ghost var e3 := SwitchToTerminal(m, e1, e2);
    assert m.sink == [SinkRow("", 0, JStr("employee"), JStr("organization")), SinkRow("Editor", 10, JStr("employee"), JStr("organization")),
                      SinkRow("example.com", 15, JStr("employee"), JStr("organization")), SinkRow("Editor", 18, JStr("employee"), JStr("organization"))];
    m.Stop();
    EditorBrowserEditorTotals(e1, e2, e3);
    assert SummaryOfDocument(m.stored) == Ok([(JStr("Editor"), 13), (JStr("example.com"), 5)]);
  }
}

=== FILE: time_entries.dfy ===
/**
 * `TimeEntry` (moni.py lines 146-200): one closed interval of foreground
 * time and its duration split into days, hours, minutes and seconds.
 * Instants are whole seconds on one clock.
 */
module TimeEntries {
  import opened Wrappers
  import opened JsonDoc

  const SecondsPerDay: int := 86400
  const SecondsPerHour: int := 3600
  const SecondsPerMinute: int := 60

  /** A time entry as the ledger keeps it. `days`, `hours`, `minutes` and
      `seconds` are stored fields: the constructor takes them as given and
      only `GetSpecificTimes` derives them from the interval. */
  datatype TimeEntry = TimeEntry(start: int, end: int, days: int, hours: int, minutes: int, seconds: int)
  {
    /** `total_time`, the elapsed interval `end_time - start_time`. */
    function TotalTime(): int { end - start }

    /** What the summary adds up for one entry: `days` is not added, since
        `hours` already counts whole days. */
    function Seconds(): int { hours * SecondsPerHour + minutes * SecondsPerMinute + seconds }
  }

  /** `TimeEntry.serialize`: the record written to the ledger file. */
  function SerializeEntry(e: TimeEntry): (r: Json)
    ensures r.JObject?
    ensures r.fields.Keys == {"start_time", "end_time", "days", "hours", "minutes", "seconds"}
  {
    JObject(map[
      "start_time" := JTime(e.start),
      "end_time" := JTime(e.end),
      "days" := JInt(e.days),
      "hours" := JInt(e.hours),
      "minutes" := JInt(e.minutes),
      "seconds" := JInt(e.seconds)])
  }

  /** The fields hold the split `_get_specific_times` makes of the interval:
      `days` is the whole days of it (rounded down, as Python's `timedelta`
      does), `hours`, `minutes` and `seconds` add up to all of it, and
      minutes and seconds are below 60. */
  ghost predicate Normalised(e: TimeEntry)
  {
    && e.days == e.TotalTime() / SecondsPerDay
    && e.Seconds() == e.TotalTime()
    && 0 <= e.minutes < 60
    && 0 <= e.seconds < 60
  }

  /** `_get_specific_times`: recomputes the four duration fields of `e` from
      its interval and keeps its instants. `hours` absorbs the days, while
      `days` keeps its own count as well. */
  method GetSpecificTimes(e: TimeEntry) returns (r: TimeEntry)
    ensures r.start == e.start && r.end == e.end
    ensures Normalised(r)
    ensures r.hours >= 24 * r.days
  {
    var total := e.end - e.start;
    var days, seconds := total / SecondsPerDay, total % SecondsPerDay;
    var hours := days * 24 + seconds / SecondsPerHour;
    var minutes := (seconds % SecondsPerHour) / SecondsPerMinute;
    ghost var withinDay := seconds;
    seconds := seconds % SecondsPerMinute;
    assert withinDay == (withinDay / 3600) * 3600 + ((withinDay % 3600) / 60) * 60 + seconds by {
      assert withinDay % 3600 == ((withinDay % 3600) / 60) * 60 + (withinDay % 3600) % 60;
      assert (withinDay % 3600) % 60 == withinDay % 60;
    }
    r := e.(days := days, hours := hours, minutes := minutes, seconds := seconds);
  }

  /** The split is determined by the interval: two normalised entries of
      the same length have the same four fields, so normalising an entry
      again changes nothing. */
  lemma NormalisedUnique(a: TimeEntry, b: TimeEntry)
    requires Normalised(a) && Normalised(b)
    requires a.TotalTime() == b.TotalTime()
    ensures a.days == b.days && a.hours == b.hours
    ensures a.minutes == b.minutes && a.seconds == b.seconds
  {
    var ra := a.minutes * 60 + a.seconds;
    var rb := b.minutes * 60 + b.seconds;
    assert a.hours * 3600 + ra == b.hours * 3600 + rb;
  }

  /** `get_time_entries_from_json`'s reading of one record: both instants
      are parsed and the four duration fields are taken as stored, in the
      order the constructor call evaluates them. */
  function DecodeEntry(j: Json): (r: Result<TimeEntry, LoadError>)
    ensures r.Ok? <==>
      && j.JObject?
      && "start_time" in j.fields && j.fields["start_time"].JTime?
      && "end_time" in j.fields && j.fields["end_time"].JTime?
      && "days" in j.fields && j.fields["days"].JInt?
      && "hours" in j.fields && j.fields["hours"].JInt?
      && "minutes" in j.fields && j.fields["minutes"].JInt?
      && "seconds" in j.fields && j.fields["seconds"].JInt?
    ensures r.Ok? ==>
      && r.value.start == j.fields["start_time"].t && r.value.end == j.fields["end_time"].t
      && r.value.days == j.fields["days"].i && r.value.hours == j.fields["hours"].i
      && r.value.minutes == j.fields["minutes"].i && r.value.seconds == j.fields["seconds"].i
    ensures j.JObject? && "start_time" !in j.fields ==> r == Err(KeyError("start_time"))
  {
    var startField :- Get(j, "start_time");
    var start :- ParseTime(startField);
    var endField :- Get(j, "end_time");
    var end :- ParseTime(endField);
    var daysField :- Get(j, "days");
    var days :- AsInt(daysField);
    var hoursField :- Get(j, "hours");
    var hours :- AsInt(hoursField);
    var minutesField :- Get(j, "minutes");
    var minutes :- AsInt(minutesField);
    var secondsField :- Get(j, "seconds");
    var seconds :- AsInt(secondsField);
    Ok(TimeEntry(start, end, days, hours, minutes, seconds))
  }

  /** Reading back a serialised entry gives the entry: both instants and
      all four duration fields survive. */
  lemma EntryRoundTrip(e: TimeEntry)
    ensures DecodeEntry(SerializeEntry(e)) == Ok(e)
  {
  }

  /** `make_time_entries_to_json`: each entry serialised, in order. */
  function EntriesToJson(entries: seq<TimeEntry>): (r: seq<Json>)
    ensures |r| == |entries|
    ensures forall k :: 0 <= k < |entries| ==> r[k] == SerializeEntry(entries[k])
  {
    EncodeEach(entries, SerializeEntry)
  }

  /** Reading back a serialised list of entries gives the list. */
  lemma EntryListRoundTrip(entries: seq<TimeEntry>)
    ensures DecodeEach(EntriesToJson(entries), DecodeEntry) == Ok(entries)
  {
    forall k | 0 <= k < |entries| ensures DecodeEntry(SerializeEntry(entries[k])) == Ok(entries[k]) {
      EntryRoundTrip(entries[k]);
    }
    DecodeEachInverts(entries, SerializeEntry, DecodeEntry);
  }
}

=== FILE: window_name.dfy ===
/**
 * How the monitor names the foreground activity: the window title, except
 * that a Google Chrome window is named by the address-bar text up to its
 * first `/` (`url_to_name`, moni.py lines 204-206 and 287-288). That is the
 * page's host when the bar shows a URL without its scheme; an empty bar
 * gives the empty name and `chrome://settings` gives `chrome:`.
 */
module WindowName {
  import opened Wrappers

  const Slash: char := '/'

  /** Python's `s.split(sep)`: the pieces between separators, in order;
      the empty string gives one empty piece. */
  function Split(s: string, sep: char): (r: seq<string>)
    ensures |r| >= 1
  {
    if s == [] then [[]]
    else if s[0] == sep then [[]] + Split(s[1..], sep)
    else
      var rest := Split(s[1..], sep);
      [[s[0]] + rest[0]] + rest[1..]
  }

  /** `sep.join(parts)`, the inverse of `Split`. */
  function Join(parts: seq<string>, sep: char): string
    requires |parts| >= 1
  {
    if |parts| == 1 then parts[0] else parts[0] + [sep] + Join(parts[1..], sep)
  }

  /** Splitting loses nothing: joining the pieces back gives the string. */
  lemma {:induction false} JoinSplit(s: string, sep: char)
    ensures Join(Split(s, sep), sep) == s
  {
    if s == [] {
    } else if s[0] == sep {
      JoinSplit(s[1..], sep);
      assert s == [sep] + s[1..];
    } else {
      var rest := Split(s[1..], sep);
      JoinSplit(s[1..], sep);
      assert Split(s, sep) == [[s[0]] + rest[0]] + rest[1..];
      if |rest| == 1 {
        assert s == [s[0]] + s[1..];
      } else {
        assert Join(rest, sep) == rest[0] + [sep] + Join(rest[1..], sep);
        assert s == [s[0]] + s[1..];
      }
    }
  }

  /** No piece contains the separator. */
  lemma {:induction false} SplitPiecesOmitSep(s: string, sep: char)
    ensures forall k :: 0 <= k < |Split(s, sep)| ==> sep !in Split(s, sep)[k]
  {
    if s != [] {
      SplitPiecesOmitSep(s[1..], sep);
    }
  }

  /** A string without the separator is a single piece. */
  lemma {:induction false} SplitWithoutSep(s: string, sep: char)
    requires sep !in s
    ensures Split(s, sep) == [s]
  {
    if s != [] {
      assert s == [s[0]] + s[1..];
      SplitWithoutSep(s[1..], sep);
    }
  }

  /** A separator in the middle splits the pieces of both sides apart. */
  lemma {:induction false} SplitAtSep(a: string, b: string, sep: char)
    ensures Split(a + [sep] + b, sep) == Split(a, sep) + Split(b, sep)
  {
    if a == [] {
      assert a + [sep] + b == [sep] + b;
      assert ([sep] + b)[1..] == b;
    } else {
      var s := a + [sep] + b;
      assert s[0] == a[0];
      assert s[1..] == a[1..] + [sep] + b;
      SplitAtSep(a[1..], b, sep);
      if a[0] != sep {
        var rest := Split(s[1..], sep);
        assert rest == Split(a[1..], sep) + Split(b, sep);
        assert rest[1..] == Split(a[1..], sep)[1..] + Split(b, sep);
      }
    }
  }

  /** `url_to_name`: the third `/`-separated piece of the URL; a URL with
      fewer than three pieces makes the indexing raise. */
  function UrlToName(url: string): (r: Option<string>)
    ensures r.Some? <==> |Split(url, Slash)| >= 3
    ensures r.Some? ==> Slash !in r.value
  {
    var pieces := Split(url, Slash);
    SplitPiecesOmitSep(url, Slash);
    if |pieces| >= 3 then Some(pieces[2]) else None
  }

  /** The URL read from Chrome's address bar is `"https://" + v`, so
      `url_to_name` never fails on it and gives what precedes the first `/`
      of `v`. */
  lemma AddressBarHost(v: string)
    ensures UrlToName("https://" + v) == Some(Split(v, Slash)[0])
  {
    var url := "https://" + v;
    assert url == "https:" + [Slash] + ([] + [Slash] + v);
    SplitAtSep("https:", [] + [Slash] + v, Slash);
    SplitAtSep([], v, Slash);
    SplitWithoutSep("https:", Slash);
  }

  /** `url_to_name("https://" + h + rest)` is `h` when `h` holds
      no `/` and `rest` is empty or a path starting with `/`. */
  lemma {:induction false} UrlToNameGivesHost(h: string, rest: string)
    requires Slash !in h
    requires rest == [] || rest[0] == Slash
    ensures UrlToName("https://" + h + rest) == Some(h)
  {
    assert "https://" + h + rest == "https://" + (h + rest);
    AddressBarHost(h + rest);
    if rest == [] {
      assert h + rest == h;
      SplitWithoutSep(h, Slash);
    } else {
      assert h + rest == h + [Slash] + rest[1..];
      SplitAtSep(h, rest[1..], Slash);
      SplitWithoutSep(h, Slash);
    }
  }

  /** `sub` occurs in `s` starting at index `k`. */
  predicate OccursAt(s: string, sub: string, k: int)
  {
    0 <= k <= |s| - |sub| && s[k..k + |sub|] == sub
  }

  /** Occurrences in the tail of `s` are the occurrences in `s` past index 0. */
  lemma OccursInTail(s: string, sub: string)
    requires s != []
    ensures forall k :: OccursAt(s[1..], sub, k) ==> OccursAt(s, sub, k + 1)
    ensures forall k :: OccursAt(s, sub, k) && k != 0 ==> OccursAt(s[1..], sub, k - 1)
  {
    forall k | OccursAt(s[1..], sub, k) ensures OccursAt(s, sub, k + 1) {
      assert s[1..][k..k + |sub|] == s[k + 1..k + 1 + |sub|];
    }
    forall k | OccursAt(s, sub, k) && k != 0 ensures OccursAt(s[1..], sub, k - 1) {
      assert s[1..][k - 1..k - 1 + |sub|] == s[k..k + |sub|];
    }
  }

  /** Python's `sub in s` on strings: `sub` occurs somewhere in `s`. */
  function ContainsText(s: string, sub: string): (r: bool)
    ensures r <==> exists k :: OccursAt(s, sub, k)
    decreases |s|
  {
    if sub <= s then
      assert OccursAt(s, sub, 0);
      true
    else if |s| <= |sub| then
      false
    else
      var r := ContainsText(s[1..], sub);
      OccursInTail(s, sub);
      assert r ==> exists k :: OccursAt(s[1..], sub, k);
      r
  }

  const Chrome: string := "Google Chrome"

  /** The activity name resolved for one poll: the window title, or for a
      title mentioning Google Chrome the third `/`-separated piece of
      `"https://" + addressBar`, which is the address-bar text up to its
      first `/` (moni.py lines 286-288). */
  function ResolvedName(title: string, addressBar: string): (r: string)
    ensures !ContainsText(title, Chrome) ==> r == title
    ensures ContainsText(title, Chrome) ==>
      Slash !in r && r <= addressBar && (r == addressBar || addressBar[|r|] == Slash)
  {
    if ContainsText(title, Chrome) then
      AddressBarHost(addressBar);
      HostIsPrefix(addressBar);
      UrlToName("https://" + addressBar).value
    else
      title
  }

  /** The first piece of a split is the prefix up to the first separator. */
  lemma {:induction false} HostIsPrefix(v: string)
    ensures var h := Split(v, Slash)[0];
      Slash !in h && h <= v && (h == v || v[|h|] == Slash)
  {
    if v != [] && v[0] != Slash {
      HostIsPrefix(v[1..]);
    }
  }
}

=== FILE: wrappers.dfy ===
/**
 * The two outcome types every module shares: a value that may be absent,
 * and the result of an operation that may fail.
 */
module Wrappers {

  datatype Option<+T> = None | Some(value: T)

  datatype Result<+T, +E> = Ok(value: T) | Err(error: E) {
    predicate IsFailure() { Err? }
    function PropagateFailure<U>(): Result<U, E> requires Err? { Err(error) }
    function Extract(): T requires Ok? { value }
  }
}
